=== FILE: README.md ===
# Decision rules of a React Native app boilerplate, in Dafny

This project models the decision rules in the app's otherwise UI-heavy code
as pure Dafny functions over immutable datatypes, and proves properties
about them:

- **API problem classifier** (`ApiProblem`): `getGeneralApiProblem` maps a
  failed request to a problem kind, with an optional `temporary` flag, or to
  nothing for a cancelled request. The checks run in order: cancellation
  first, then the message text when no response arrived, then the response
  status.
- **Authentication store** (`AuthenticationStore`): an optional auth token,
  an e-mail and a password. The store has a derived `isAuthenticated` view,
  `logout`, and setters that delete every space.
- **Locale resolution** (`I18n`): picks the translation locale from the
  device's first preferred locale. It takes the exact tag if it is a key,
  else the language part, else `en-US`. It also derives the right-to-left
  flag.
- **Date formatting** (`FormatDate`): chooses the date library's locale
  from the active locale's language part, then defaults the format pattern
  and options.
- **Dropdown** (`Dropdown`): the header title, the filtered item list, the
  clamped list height, and the toggle and select transitions.
- **Toggle** (`Toggle`): the disabled rule, the press handler, and the
  "first truthy entry wins" colour lists of the checkbox, radio and switch
  variants. It also covers the switch knob size and the visibility of the
  on/off labels.
- **Theme context** (`ThemeContext`, with the colour tables in `Colors`):
  the light/dark toggle persisted to storage, palette selection, and the
  theme chosen on load.

Shared modules: `Wrappers` holds `Option` (a value that may be
`null`/`undefined`) and `Result` (a call that may throw). `Text` holds
JavaScript string truthiness, `replace(/c/g, '')` as `RemoveAll`, and
`split(c)[0]` as `BeforeFirst`.

Effects outside the rules are kept out:

- Storage is a map from storage key to stored text.
- The device's locale list and colour scheme are parameters.
- Callbacks are returned as data: the `Call` list of a toggle press, and
  the reported key of a dropdown selection.
- The date library's `format(parseISO(…))` call is returned as a record of
  its arguments.

The classifier is modelled exactly as written. Its timeout branch matches
only the literal message `timeout of 0ms exceeded`. The HTTP client is
created with a 10000 ms timeout, so the lemmas `OnlyZeroTimeoutRecognised`
and `ConfiguredTimeoutIsUnknown` show the consequence: a timeout reported
for any duration other than 0 ms, including 10000 ms, is classified
`unknown`. The message format `timeout of <ms>ms exceeded` belongs to the
HTTP client library, which is not part of this model. For that reason this
is stated as a consequence and not filed as a finding.

## Model

| member | source | states |
|---|---|---|
| ApiProblem.GetGeneralApiProblem | app/services/api/test/apiProblem.ts:3-35 | The result is null exactly for the message "Canceled", with or without a response. `temporary` is present, and then true, exactly when no response arrived. The kind alone tells whether a response arrived. |
| ApiProblem.KindName | app/services/api/test/apiProblem.ts:14-33 | Each kind's wire name is a non-empty lower-case kebab-case word (cannot-connect, timeout, unknown, unauthorized, forbidden, not-found, server, rejected). |
| ApiProblem.StatusClassification | app/services/api/test/apiProblem.ts:22-34 | With a response: 401, 403, 404 and 500 map to unauthorized, forbidden, not-found and server. Any other status is rejected. There is no `temporary` field, and the message plays no part. |
| ApiProblem.TransportClassification | app/services/api/test/apiProblem.ts:11-19 | Without a response (and not cancelled) the result is always `temporary: true`. The kind is cannot-connect iff the message is exactly "Network Error", timeout iff it is exactly "timeout of 0ms exceeded", and unknown otherwise. |
| ApiProblem.ParseKind | app/services/api/test/apiProblem.ts:14-33 | Reading a kind's wire name back yields a kind that has exactly that name. |
| ApiProblem.KindNameRoundTrip | app/services/api/test/apiProblem.ts:14-33 | The eight wire names are distinct: parsing a kind's name yields that kind. |
| ApiProblem.Witness | app/services/api/test/apiProblem.ts:3-35 | Every kind is produced by some request error, with `temporary` exactly for the no-response kinds (totality and reachability of the decision list). |
| ApiProblem.OnlyZeroTimeoutRecognised | app/services/api/test/apiProblem.ts:15-18 | A "timeout of <ms>ms exceeded" message for any duration other than "0" is classified unknown, not timeout. |
| ApiProblem.ConfiguredTimeoutIsUnknown | app/services/api/apiHandler.ts:7-10 | A timeout at the client's configured 10000 ms is classified unknown. |
| ApiProblem.TestScenarios | app/services/api/test/apiProblem.test.ts:5-85 | Each unit-test input gives the expected problem as the test writes it: the `kind` wire name ("cannot-connect", "timeout", "server", …) and the `temporary` flag, or null for cancellation. |
| Text.RemoveAll | app/models/AuthenticationStore.ts:21-26 | `replace(/ /g, '')`: the result has no space, no more characters than the input, and the same multiset of characters minus every space. A string without spaces is returned unchanged. |
| Text.FalsyStrings | app/models/AuthenticationStore.ts:12 | The falsy strings are exactly the empty string, and the falsy optional strings exactly null, undefined and the empty string. |
| Text.RemoveAllAppend | app/models/AuthenticationStore.ts:22 | Deletion distributes over concatenation, so the kept characters keep their order. |
| Text.RemoveAllIdempotent | app/models/AuthenticationStore.ts:22 | Deleting spaces twice equals deleting them once. |
| Text.BeforeFirst | app/i18n/i18n.ts:31 | `split('-')[0]` is a prefix of the string without '-', and it ends at the first '-' or at the end. |
| Text.BeforeFirstUnique | app/i18n/i18n.ts:31 | Those three properties determine `split('-')[0]` uniquely. |
| Text.BeforeFirstWithout | app/i18n/i18n.ts:31 | A string without '-' is its own first part. |
| Text.BeforeFirstJoin | app/i18n/i18n.ts:31 | The first part of `p + "-" + q` is `p` when `p` has no '-'. |
| AuthenticationStore.InitialState | app/models/AuthenticationStore.ts:5-20 | The declared defaults (no token, empty e-mail and password) are not authenticated, and `logout` from any state returns to them. |
| AuthenticationStore.TokenDecides | app/models/AuthenticationStore.ts:11-13 | `isAuthenticated` (`!!authToken`) holds iff the token is present and not the empty string, whatever the e-mail and password. |
| AuthenticationStore.Logout | app/models/AuthenticationStore.ts:16-20 | After logout the token is absent, e-mail and password are empty, and the store is not authenticated. |
| AuthenticationStore.SetEmail | app/models/AuthenticationStore.ts:21-23 | The stored e-mail has no space and keeps every other character of the input (as a multiset). Input without spaces is stored verbatim. Password and token are unchanged. |
| AuthenticationStore.SetPassword | app/models/AuthenticationStore.ts:24-26 | The stored password has no space and keeps every other character of the input. E-mail and token are unchanged. |
| AuthenticationStore.CredentialsDoNotAuthenticate | app/models/AuthenticationStore.ts:11-26 | `isAuthenticated` (a present, non-empty token) is unaffected by either setter. |
| AuthenticationStore.SetEmailIdempotent | app/models/AuthenticationStore.ts:22 | Setting the e-mail to its own stored value changes nothing. |
| AuthenticationStore.SetEmailKeepsOrder | app/models/AuthenticationStore.ts:22 | The stored value of a concatenation is the concatenation of the stored values. |
| AuthenticationStore.SetPasswordLikeSetEmail | app/models/AuthenticationStore.ts:21-26 | Both setters filter their input identically. |
| I18n.SystemLocale | app/i18n/i18n.ts:23 | The system locale is the first preferred locale, absent exactly when the list is empty. |
| I18n.SystemLocaleTag | app/i18n/i18n.ts:24 | A missing system locale counts as tag "en-US". Otherwise its language tag is used. |
| I18n.ResolveLocale | app/i18n/i18n.ts:15-37 | The resolved locale is always a translation key (de, en, en-US). It equals the tag iff the tag is a key. Otherwise it is the tag's part before the first '-' or the fallback "en-US". |
| I18n.RegionalTagFallsBackToLanguage | app/i18n/i18n.ts:29-33 | A tag `language-region` that is not itself a key resolves to its language when that is a key. |
| I18n.UnsupportedTagGetsFallback | app/i18n/i18n.ts:34-36 | A tag that is not a key and whose language part is not a key resolves to "en-US". |
| I18n.ResolveLocaleIdempotent | app/i18n/i18n.ts:26-37 | Resolving a resolved locale keeps it. |
| I18n.ResolveLocaleExamples | app/i18n/i18n.ts:26-37 | de-AT resolves to de, en-GB to en, en-US to en-US, and fr-FR to en-US. |
| I18n.ActiveLocale | app/i18n/i18n.ts:23-37 | The start-up locale is a key. Without system locales it is "en-US". Otherwise it is the resolution of the first system locale's tag, so the exact tag when that is a key. |
| I18n.IsRTL | app/i18n/i18n.ts:40 | Right-to-left iff a system locale exists and its text direction is rtl. |
| FormatDate.GetLocale | app/utils/formatDate.ts:16-19 | Arabic iff the active locale's part before '-' is "ar", Korean iff it is "ko", US English otherwise. |
| FormatDate.RegionIgnored | app/utils/formatDate.ts:17 | The region part of the locale never changes the date locale. |
| FormatDate.AppDatesAreEnglish | app/utils/formatDate.ts:16-19 | For every locale that locale resolution produces (de, en, en-US), the date locale is US English. |
| FormatDate.FormatDate | app/utils/formatDate.ts:21-28 | A given pattern passes through unchanged, and an absent one becomes "MMM dd, yyyy". The computed locale replaces any caller `locale`, and every other caller option keeps its value. |
| Dropdown.MakeProps | app/components/Dropdown.tsx:32-43 | An absent `openHeight` defaults to 200 and an absent `initialOpen` to false. |
| Dropdown.FirstRender | app/components/Dropdown.tsx:45-67 | On first render nothing is selected, so the header shows the title if non-empty, else the first item. The list starts at `openHeight` when initially open and at 0 otherwise. The first press closes an initially open list (height 0) and otherwise opens it to the content height. |
| Dropdown.ReopenFitsContent | app/components/Dropdown.tsx:47-67 | An initially open list starts at the full `openHeight`, but once closed and reopened it opens to the content height instead. |
| Dropdown.ReopenExample | app/components/Dropdown.tsx:47-67 | With a title and one other item, an initially open list is 200 tall at first and 50 after closing and reopening. |
| Dropdown.DisplayedTitle | app/components/Dropdown.tsx:50 | The title shown is the selected item if non-empty, else the title if non-empty, else the first item's value. It is absent (render throws) exactly when none of these exists. |
| Dropdown.Without | app/components/Dropdown.tsx:53 | The filter keeps exactly the items whose value differs from the title, and it is no longer than the input. |
| Dropdown.WithoutAppend | app/components/Dropdown.tsx:53 | Filtering distributes over concatenation, so the kept items keep their order. |
| Dropdown.WithoutNothing | app/components/Dropdown.tsx:53 | A list that never shows the title is kept whole. |
| Dropdown.FilteredItems | app/components/Dropdown.tsx:53 | The list offers exactly the items whose value differs from the displayed title. |
| Dropdown.ContentHeight | app/components/Dropdown.tsx:30-56 | The list height is the smaller of 50 per listed item and `openHeight`, so it never exceeds `openHeight`. |
| Dropdown.ToggleDropdown | app/components/Dropdown.tsx:59-67 | The open flag flips. The target height is 0 when closing and the content height when opening. The selection is unchanged. |
| Dropdown.ToggleTwice | app/components/Dropdown.tsx:59-67 | Two toggles restore the open flag and the selection. |
| Dropdown.HandleSelectItem | app/components/Dropdown.tsx:70-75 | Selecting stores the item's value and flips the open flag. It reports the item's key exactly when an `onPress` was passed. |
| Dropdown.SelectOffered | app/components/Dropdown.tsx:70-75 | An item offered by the open list, once chosen, closes the list at height 0. If its value is non-empty, the header then shows it and it leaves the list. |
| Dropdown.TitleNotListed | app/components/Dropdown.tsx:50-53 | The displayed title never appears in the list. |
| Colors.SchemeTable | app/theme/colors.ts:19-56 | A scheme table exists exactly for the names light and dark, and each name selects its own table. |
| Colors.BaseColor | app/theme/colors.ts:3-17 | Each base-palette name, `transparent` included, has its non-empty colour from the palette. |
| Colors.DarkColor | app/theme/colors.ts:20-37 | Each role of the dark scheme has a non-empty colour drawn from the base palette. |
| Colors.LightColor | app/theme/colors.ts:38-55 | Each role of the light scheme has a non-empty colour drawn from the base palette. |
| Colors.SchemesDiffer | app/theme/colors.ts:19-56 | The light and dark schemes agree exactly on accent, accentSecondary, error, separator and transparent, and differ on every background, border and text role. |
| ThemeContext.StartUp | app/context/ThemeContext.tsx:37-67 | The theme starts as the system colour scheme. The load effect then switches to a non-empty saved theme and otherwise keeps the system scheme, and it never writes storage. |
| ThemeContext.NextTheme | app/context/ThemeContext.tsx:45 | The next theme is dark iff the current one is light, and it is always light or dark. |
| ThemeContext.SetAppTheme | app/context/ThemeContext.tsx:44-48 | The new theme is saved under the app-theme key and is the new state (saved and current agree). No other storage entry changes. |
| ThemeContext.ToggleTwice | app/context/ThemeContext.tsx:44-48 | One toggle always lands on light or dark. Two toggles from light or dark return to the start. |
| ThemeContext.LoadTheme | app/context/ThemeContext.tsx:58-67 | On load a truthy stored theme wins. Otherwise the system colour scheme is used. |
| ThemeContext.OnLoad | app/context/ThemeContext.tsx:58-67 | Loading changes only the current theme, never storage. |
| ThemeContext.ToggleSurvivesReload | app/context/ThemeContext.tsx:44-67 | After a toggle, reloading keeps the toggled theme whatever the system scheme. |
| ThemeContext.SchemeName | app/context/ThemeContext.tsx:53 | The scheme name picks the light scheme for a null, undefined or empty theme and the theme's own name otherwise. |
| ThemeContext.PaletteFor | app/context/ThemeContext.tsx:53 | The palette holds every base-palette colour. For the light and dark schemes it holds every role with that scheme's colour, including `transparent`, which the base palette overrides with the same colour. An unknown scheme name leaves only the base palette. |
| ThemeContext.UnsetThemeIsLight | app/context/ThemeContext.tsx:53 | A null, undefined or empty theme uses the light palette. |
| ThemeContext.SchemePalettesComplete | app/context/ThemeContext.tsx:53 | The light and dark palettes define every role with a non-empty colour, so every closed form of the toggle colour lists applies to them. |
| ThemeContext.UnknownThemeHasNoRoles | app/context/ThemeContext.tsx:53 | A stored theme name other than light or dark leaves every role except `transparent` undefined. |
| ThemeContext.ProvidedValue | app/context/ThemeContext.tsx:50-56 | The provided value carries the current theme and the palette that theme selects; for an unset theme that is the light palette. |
| ThemeContext.UseColor | app/context/ThemeContext.tsx:28-31 | `useColor` fails with its error message exactly when there is no provider value. Otherwise it returns that value. |
| Toggle.ResolveVariant | app/components/Toggle.tsx:215-237 | The variant defaults to checkbox. Radio and switch are chosen by their names. Any other name renders nothing. |
| Toggle.FieldLabelSides | app/components/Toggle.tsx:265-284 | The label renders only with label content (the early return at Toggle.tsx:635) and never on both sides. With content it goes left for position "left" and right for "right" or no position; any other position shows no label. |
| Toggle.IsDisabled | app/components/Toggle.tsx:231 | Enabled iff `editable` is not false (default true), the status is not disabled, and the `disabled` prop is not set. |
| Toggle.HandlePress | app/components/Toggle.tsx:250-254 | Disabled presses call nothing. Otherwise the value listener, if passed, gets `!value` (an absent value counts as off), then the press handler is called if passed. With both passed the calls are exactly that pair in that order. |
| Toggle.PressTwice | app/components/Toggle.tsx:250-254 | Feeding the reported value back, two presses report opposite values and end at the start. |
| Toggle.Lookup | app/components/Toggle.tsx:323 | A palette entry is read iff the palette has it. |
| Toggle.Or | app/components/Toggle.tsx:588-589 | JavaScript's logical or of two optional colours: the left operand when it is truthy, else the right operand. |
| Toggle.When | app/components/Toggle.tsx:325-329 | `cond && colour` is truthy iff the guard holds and the colour is truthy, and it is then that colour. |
| Toggle.FirstTruthy | app/components/Toggle.tsx:325-329 | `filter(Boolean)[0]` is the first truthy entry, with every earlier entry falsy. It is absent iff no entry is truthy. |
| Toggle.FirstTruthyOfThree | app/components/Toggle.tsx:325-329 | With a truthy last entry, a three-entry list picks its first truthy entry in order. |
| Toggle.FirstTruthyOfFour | app/components/Toggle.tsx:331-336 | With a truthy last entry, a four-entry list picks its head if truthy, else decides on the rest. |
| Toggle.OffBackground | app/components/Toggle.tsx:325-329 | With a complete palette, the off background is errorBackground when enabled and in error, else backgroundSecondary. The same rule is used by all three variants. |
| Toggle.OnBackground | app/components/Toggle.tsx:338-342 | With a complete palette, the on background is transparent when disabled, else errorBackground in error, else backgroundSecondary. |
| Toggle.OuterBorder | app/components/Toggle.tsx:331-336 | With a complete palette, the border is backgroundSecondary when disabled, else error in error, else accent when off, else border. |
| Toggle.IconTint | app/components/Toggle.tsx:344-348 | With a complete palette, the check mark is background when disabled, else error in error, else text. |
| Toggle.DotBackground | app/components/Toggle.tsx:392-396 | With a complete palette, the radio dot is background when disabled, else error in error, else accent. |
| Toggle.KnobBackground | app/components/Toggle.tsx:475-491 | A truthy style override (the detail override when on, the inner one when off) wins whatever the palette holds. With a complete palette and no override: when on, error beats disabled; when off, disabled beats error; accent is the last resort. |
| Toggle.KnobPriorityFlips | app/components/Toggle.tsx:475-491 | A disabled switch in error has an error-coloured knob when on and a background-coloured knob when off. |
| Toggle.DisabledColours | app/components/Toggle.tsx:325-342 | With a complete palette, when disabled the off background and the border are backgroundSecondary and the on background is transparent, whatever the status. |
| Toggle.LabelColor | app/components/Toggle.tsx:585-590 | With a complete palette, the switch label is background when disabled, else error in error. When off it is the inner override or background; when on, the detail override or accent. An enabled label outside the error state takes a truthy override whatever the palette holds. |
| Toggle.FirstNumber | app/components/Toggle.tsx:453-455 | `find(v => typeof v === 'number')` returns the first numeric entry, every earlier entry being non-numeric. It is absent iff no entry is numeric. |
| Toggle.KnobSize | app/components/Toggle.tsx:451-459 | The knob size is the override if numeric, else 24. It is never absent, and it is the fallback 2 only when the override is 2. |
| Toggle.LabelVisible | app/components/Toggle.tsx:575-577 | No label shows without an accessibility mode. A visible label's role matches the switch state. |
| Toggle.ExactlyOneLabel | app/components/Toggle.tsx:575-577 | With an accessibility mode, exactly one of the on and off labels shows. |
| Toggle.SwitchLabel | app/components/Toggle.tsx:594-613 | Content is drawn iff the label is visible. Text mode draws a line for on and a circle for off. Icon mode draws the `iconView` name (default "VIEW") for on and the `iconHidden` name (default "HIDDEN") for off. |

## Left out

- Rendering, styles and animation (JSX, style arrays, spring and timing animations, interpolation) are left out. They are presentation and floating-point motion. The dropdown's `height` is the animation's target value only.
- Storage serialisation is left out. The storage wrapper and the literal values of the storage keys are not part of this model, so keys are an enumeration and stored values are text.
- Logging is left out: the dropdown's `logger.log` of the selected value has no effect on the rules.
- Asynchrony is left out. `setAppTheme` and the load effect are awaited promises; they are modelled as single transitions in which the save happens before the state update. A failing save is not modelled.
- Toggle.ResolveVariant: a variant name that is an inherited property of the lookup object (such as "toString") is treated like any unknown name. JavaScript would find a truthy inherited member there.
- Dropdown.ToggleDropdown: the handlers exist only once the component has rendered, so the transitions require a displayed title.
- The HTTP client, its interceptors and request dispatch are left out. The classifier sees only the message and the optional response status. A missing message is treated as the empty string.
- The date library's parsing and formatting, the i18n library's translation lookup and the layout-direction calls are left out. They are foreign calls.
- Strings are sequences of Unicode scalar values, not UTF-16 code units. Lengths and lone surrogates differ from JavaScript, but every character the modelled operations test is ASCII.
- JavaScript numbers are modelled as integers. Fractional sizes, heights and statuses, and `NaN` (which is of type `number` and makes `Math.min` return `NaN`), are not modelled.
- The colours are opaque strings. Only their presence and non-emptiness matter to the rules.

=== FILE: api_problem.dfy ===
/** Classification of a failed HTTP request into a general problem kind
    (`getGeneralApiProblem`). The decision list is checked in order, first
    match wins: cancellation, then "no response" by message text, then the
    response status. */
module ApiProblem {
  import opened Wrappers

  /** The part of the HTTP client's error object the classifier reads. */
  datatype Response = Response(status: int)
  datatype RequestError = RequestError(message: string, response: Option<Response>)

  datatype Kind =
    | CannotConnect | Timeout | Unknown
    | Unauthorized | Forbidden | NotFound | Server | Rejected

  /** `{ kind, temporary? }`: `temporary` is `None` when the field is absent. */
  datatype Problem = Problem(kind: Kind, temporary: Option<bool>)

  const CanceledMessage: string := "Canceled"
  const NetworkErrorMessage: string := "Network Error"
  const ZeroTimeoutMessage: string := "timeout of 0ms exceeded"

  /** The request timeout the app's HTTP client is created with, in ms. */
  const ClientTimeoutMs: string := "10000"

  /** The wire name of each kind. */
  function KindName(k: Kind): (r: string)
    ensures r != "" && forall i :: 0 <= i < |r| ==> 'a' <= r[i] <= 'z' || r[i] == '-'
  {
    match k
    case CannotConnect => "cannot-connect"
    case Timeout => "timeout"
    case Unknown => "unknown"
    case Unauthorized => "unauthorized"
    case Forbidden => "forbidden"
    case NotFound => "not-found"
    case Server => "server"
    case Rejected => "rejected"
  }

  /** Reads a wire name back; `None` for a name no kind carries. */
  function ParseKind(name: string): (r: Option<Kind>)
    ensures r.Some? ==> KindName(r.value) == name
  {
    if name == "cannot-connect" then Some(CannotConnect)
    else if name == "timeout" then Some(Timeout)
    else if name == "unknown" then Some(Unknown)
    else if name == "unauthorized" then Some(Unauthorized)
    else if name == "forbidden" then Some(Forbidden)
    else if name == "not-found" then Some(NotFound)
    else if name == "server" then Some(Server)
    else if name == "rejected" then Some(Rejected)
    else None
  }

  /** Wire names are distinct: reading a kind's name back yields that kind. */
  lemma KindNameRoundTrip(k: Kind)
    ensures ParseKind(KindName(k)) == Some(k)
  {
  }

  /** Kinds that describe a request which never got a response. */
  predicate IsTransportKind(k: Kind) {
    k == CannotConnect || k == Timeout || k == Unknown
  }

  /** The status codes with a kind of their own; every other status is `Rejected`. */
  const StatusKinds: map<int, Kind> :=
    map[401 := Unauthorized, 403 := Forbidden, 404 := NotFound, 500 := Server]

  function GetGeneralApiProblem(e: RequestError): (r: Option<Problem>)
    // cancellation, and only cancellation, is not reported
    ensures r.None? <==> e.message == CanceledMessage
    // the flag is present, and then true, exactly for requests without a response
    ensures r.Some? ==> (r.value.temporary == Some(true) <==> e.response.None?)
    ensures r.Some? ==> (r.value.temporary.None? <==> e.response.Some?)
    // the kind alone tells whether a response arrived
    ensures r.Some? ==> (IsTransportKind(r.value.kind) <==> e.response.None?)
  {
    if e.message == CanceledMessage then None
    else if e.response.None? then
      if e.message == NetworkErrorMessage then Some(Problem(CannotConnect, Some(true)))
      else if e.message == ZeroTimeoutMessage then Some(Problem(Timeout, Some(true)))
      else Some(Problem(Unknown, Some(true)))
    else
      match e.response.value.status
      case 401 => Some(Problem(Unauthorized, None))
      case 403 => Some(Problem(Forbidden, None))
      case 404 => Some(Problem(NotFound, None))
      case 500 => Some(Problem(Server, None))
      case _ => Some(Problem(Rejected, None))
  }

  /** With a response, the kind is read off the status table, `Rejected`
      for any status it does not list, and the message plays no part. */
  lemma StatusClassification(message: string, status: int)
    requires message != CanceledMessage
    ensures GetGeneralApiProblem(RequestError(message, Some(Response(status))))
         == Some(Problem(if status in StatusKinds then StatusKinds[status] else Rejected, None))
  {
  }

  /** Without a response only the message matters, and only by exact
      equality with the two recognised texts. */
  lemma TransportClassification(message: string)
    requires message != CanceledMessage
    ensures var r := GetGeneralApiProblem(RequestError(message, None));
      && r.Some? && r.value.temporary == Some(true)
      && (r.value.kind == CannotConnect <==> message == NetworkErrorMessage)
      && (r.value.kind == Timeout <==> message == ZeroTimeoutMessage)
      && (r.value.kind == Unknown <==> message != NetworkErrorMessage && message != ZeroTimeoutMessage)
  {
  }

  /** An input that is classified as `k`: every kind is reachable. */
  function Witness(k: Kind): (e: RequestError)
    ensures GetGeneralApiProblem(e) == Some(Problem(k, if IsTransportKind(k) then Some(true) else None))
  {
    match k
    case CannotConnect => RequestError(NetworkErrorMessage, None)
    case Timeout => RequestError(ZeroTimeoutMessage, None)
    case Unknown => RequestError("", None)
    case Unauthorized => RequestError("", Some(Response(401)))
    case Forbidden => RequestError("", Some(Response(403)))
    case NotFound => RequestError("", Some(Response(404)))
    case Server => RequestError("", Some(Response(500)))
    case Rejected => RequestError("", Some(Response(418)))
  }

  /** The message the HTTP client produces when a request exceeds a timeout
      of `ms` milliseconds. */
  function TimeoutMessage(ms: string): string {
    "timeout of " + ms + "ms exceeded"
  }

  /** The timeout branch matches one literal message: a timeout reported for
      any duration other than "0" ms is classified `Unknown`. */
  lemma OnlyZeroTimeoutRecognised(ms: string)
    requires ms != "0"
    ensures GetGeneralApiProblem(RequestError(TimeoutMessage(ms), None))
         == Some(Problem(Unknown, Some(true)))
  {
    var m := TimeoutMessage(ms);
    assert |m| == 22 + |ms|;
    assert m[11..|m| - 11] == ms;
    assert ZeroTimeoutMessage == TimeoutMessage("0");
    var z := ZeroTimeoutMessage;
    assert z[11..|z| - 11] == "0";
    assert m != ZeroTimeoutMessage;
    assert |m| > |NetworkErrorMessage| && |m| > |CanceledMessage|;
  }

  /** So a request that times out with the client's configured 10000 ms limit
      is reported as `Unknown`, not `Timeout`. */
  lemma ConfiguredTimeoutIsUnknown()
    ensures GetGeneralApiProblem(RequestError(TimeoutMessage(ClientTimeoutMs), None))
         == Some(Problem(Unknown, Some(true)))
  {
    OnlyZeroTimeoutRecognised(ClientTimeoutMs);
  }

  /** The problem a test expects, as the test writes it: the kind's wire name
      and the `temporary` flag (`None` when the object has no such field). */
  predicate Reports(e: RequestError, kind: string, temporary: Option<bool>) {
    var r := GetGeneralApiProblem(e);
    r.Some? && KindName(r.value.kind) == kind && r.value.temporary == temporary
  }

  /** The scenarios of the unit tests. An error object built without a
      `response` has none; one built without a `message` is given the empty
      message here, which like `undefined` equals none of the recognised texts. */
  lemma TestScenarios()
    ensures Reports(RequestError("Network Error", None), "cannot-connect", Some(true))
    ensures Reports(RequestError("timeout of 0ms exceeded", None), "timeout", Some(true))
    ensures Reports(RequestError("", Some(Response(500))), "server", None)
    ensures Reports(RequestError("Some unknown error", None), "unknown", Some(true))
    ensures Reports(RequestError("", Some(Response(401))), "unauthorized", None)
    ensures Reports(RequestError("", Some(Response(403))), "forbidden", None)
    ensures Reports(RequestError("", Some(Response(404))), "not-found", None)
    ensures Reports(RequestError("", Some(Response(418))), "rejected", None)
    ensures GetGeneralApiProblem(RequestError("Canceled", None)) == None
  {
  }
}

=== FILE: authentication_store.dfy ===
/** The authentication store: an auth token that may be absent, and the
    e-mail and password typed on the login screen. */
module AuthenticationStore {
  import opened Wrappers
  import opened Text

  datatype Store = Store(authToken: Option<string>, email: string, password: string)

  /** Declared defaults: no token, empty e-mail and password. */
  const Initial: Store := Store(None, "", "")

  /** `!!store.authToken`: a token is present and is not the empty string. */
  predicate IsAuthenticated(s: Store) {
    s.authToken.Some? && Truthy(s.authToken.value)
  }

  /** Only the token decides: an absent or empty token is signed out, any
      other token signed in, whatever the credentials hold. */
  lemma TokenDecides(token: Option<string>, email: string, password: string)
    ensures IsAuthenticated(Store(token, email, password)) <==> token != None && token != Some("")
  {
  }

  function Logout(s: Store): (r: Store)
    ensures r.authToken.None? && r.email == "" && r.password == ""
    ensures !IsAuthenticated(r)
  {
    Store(None, "", "")
  }

  /** Stores `value` with every space (U+0020) removed. */
  function SetEmail(s: Store, value: string): (r: Store)
    ensures ' ' !in r.email
    ensures multiset(r.email) == multiset(value)[' ' := 0]
    ensures ' ' !in value ==> r.email == value
    ensures r.password == s.password && r.authToken == s.authToken
  {
    s.(email := RemoveAll(value, ' '))
  }

  /** Stores `value` with every space (U+0020) removed. */
  function SetPassword(s: Store, value: string): (r: Store)
    ensures ' ' !in r.password
    ensures multiset(r.password) == multiset(value)[' ' := 0]
    ensures ' ' !in value ==> r.password == value
    ensures r.email == s.email && r.authToken == s.authToken
  {
    s.(password := RemoveAll(value, ' '))
  }

  /** The initial store is not authenticated, and logging out returns to it. */
  lemma InitialState(s: Store)
    ensures !IsAuthenticated(Initial)
    ensures Logout(s) == Initial
  {
  }

  /** Authentication depends on the token only. */
  lemma CredentialsDoNotAuthenticate(s: Store, value: string)
    ensures IsAuthenticated(SetEmail(s, value)) == IsAuthenticated(s)
    ensures IsAuthenticated(SetPassword(s, value)) == IsAuthenticated(s)
  {
  }

  /** Storing the stored e-mail again changes nothing. */
  lemma SetEmailIdempotent(s: Store, value: string)
    ensures var t := SetEmail(s, value); SetEmail(t, t.email) == t
  {
  }

  /** The kept characters stay in their order: the stored value of a
      concatenation is the concatenation of the stored values. */
  lemma SetEmailKeepsOrder(s: Store, a: string, b: string)
    ensures SetEmail(s, a + b).email == SetEmail(s, a).email + SetEmail(s, b).email
  {
    RemoveAllAppend(a, b, ' ');
  }

  /** Both setters filter their input the same way. */
  lemma SetPasswordLikeSetEmail(s: Store, value: string)
    ensures SetPassword(s, value).password == SetEmail(s, value).email
  {
  }
}

=== FILE: colors.dfy ===
/** The colour tables: a base palette of named colours, and one table per
    colour scheme keyed by role. Both tables share one key space, because
    the app merges them into a single object. Colours are opaque CSS colour
    strings. */
module Colors {
  import opened Wrappers

  type Color = string

  datatype ColorKey =
    // roles, defined by each scheme table
    | Accent | AccentSecondary | Background | BackgroundSecondary | Border
    | Error | ErrorBackground | Separator | TextColor | TextDim | Transparent
    // base palette names
    | Accent100 | Accent200 | Accent300
    | Neutral100 | Neutral200 | Neutral300 | Neutral400
    | Overlay20 | Overlay50

  /** Keys a scheme table defines. */
  predicate IsRole(k: ColorKey) {
    !(k.Accent100? || k.Accent200? || k.Accent300? || k.Neutral100? || k.Neutral200?
      || k.Neutral300? || k.Neutral400? || k.Overlay20? || k.Overlay50?)
  }

  /** Keys the base palette defines: its own names and `transparent`. */
  predicate IsBase(k: ColorKey) {
    !IsRole(k) || k == Transparent
  }

  /** The base palette: its own names, plus `transparent`. */
  function BaseColor(k: ColorKey): (r: Color)
    requires IsBase(k)
    ensures r != ""
  {
    match k
    case Accent100 => "#f3aeee"
    case Accent200 => "#E879E1"
    case Accent300 => "#f446e7"
    case Neutral100 => "#FFFFFF"
    case Neutral200 => "#cbcfcf"
    case Neutral300 => "#191818"
    case Neutral400 => "#0c0c0c"
    case Overlay20 => "rgba(25, 16, 21, 0.2)"
    case Overlay50 => "rgba(25, 16, 21, 0.5)"
    case Transparent => "rgba(0, 0, 0, 0)"
  }

  /** The dark scheme: every role names a base palette colour. */
  function DarkColor(k: ColorKey): (r: Color)
    requires IsRole(k)
    ensures r != ""
    ensures exists b :: IsBase(b) && r == BaseColor(b)
  {
    match k
    case Accent => BaseColor(Accent200)
    case AccentSecondary => BaseColor(Accent100)
    case Background => BaseColor(Neutral400)
    case BackgroundSecondary => BaseColor(Neutral300)
    case Border => BaseColor(Neutral300)
    case Error => BaseColor(Accent300)
    case ErrorBackground => BaseColor(Neutral400)
    case Separator => BaseColor(Neutral300)
    case TextColor => BaseColor(Neutral100)
    case TextDim => BaseColor(Neutral200)
    case Transparent => BaseColor(Transparent)
  }

  /** The light scheme, the same shape over different base colours. */
  function LightColor(k: ColorKey): (r: Color)
    requires IsRole(k)
    ensures r != ""
    ensures exists b :: IsBase(b) && r == BaseColor(b)
  {
    match k
    case Accent => BaseColor(Accent200)
    case AccentSecondary => BaseColor(Accent100)
    case Background => BaseColor(Neutral100)
    case BackgroundSecondary => BaseColor(Neutral200)
    case Border => BaseColor(Neutral200)
    case Error => BaseColor(Accent300)
    case ErrorBackground => BaseColor(Neutral100)
    case Separator => BaseColor(Neutral300)
    case TextColor => BaseColor(Neutral400)
    case TextDim => BaseColor(Neutral300)
    case Transparent => BaseColor(Transparent)
  }

  /** The two schemes agree on the accents, the error colour, the separator
      and transparency, and differ on every background, border and text role. */
  lemma SchemesDiffer(k: ColorKey)
    requires IsRole(k)
    ensures LightColor(k) == DarkColor(k) <==>
      k == Accent || k == AccentSecondary || k == Error || k == Separator || k == Transparent
  {
  }

  /** The base palette, merged over every scheme's table. */
  const BasePalette: map<ColorKey, Color> := map k | IsBase(k) :: BaseColor(k)

  const DarkColors: map<ColorKey, Color> := map k | IsRole(k) :: DarkColor(k)
  const LightColors: map<ColorKey, Color> := map k | IsRole(k) :: LightColor(k)

  /** Each table holds exactly its keys, with the colours defined above. */
  lemma TableEntries()
    ensures forall k :: k in BasePalette <==> IsBase(k)
    ensures forall k :: IsBase(k) ==> BasePalette[k] == BaseColor(k)
    ensures forall k :: k in LightColors <==> IsRole(k)
    ensures forall k :: IsRole(k) ==> LightColors[k] == LightColor(k)
    ensures forall k :: k in DarkColors <==> IsRole(k)
    ensures forall k :: IsRole(k) ==> DarkColors[k] == DarkColor(k)
  {
  }

  /** `colors[name]`: the scheme table of that name, absent for any other name. */
  function SchemeTable(name: string): (r: Option<map<ColorKey, Color>>)
    ensures r.Some? <==> name == "light" || name == "dark"
    ensures name == "light" ==> r == Some(LightColors)
    ensures name == "dark" ==> r == Some(DarkColors)
  {
    if name == "dark" then Some(DarkColors)
    else if name == "light" then Some(LightColors)
    else None
  }

  /** A palette in which every role names a colour (a non-empty string). */
  predicate Complete(palette: map<ColorKey, Color>) {
    forall k :: IsRole(k) ==> k in palette && palette[k] != ""
  }
}

=== FILE: dropdown.dfy ===
/** The dropdown component's selection logic: which title the header shows,
    which items the open list offers, how tall the list is, and the toggle
    and select transitions. Rendering and the spring animation are left out;
    `height` is the animation's target value. */
module Dropdown {
  import opened Wrappers
  import opened Text

  datatype Item = Item(key: string, value: string)

  /** Props after defaulting; `hasOnPress` says whether a callback was passed. */
  datatype Props = Props(title: Option<string>, items: seq<Item>, openHeight: int,
                         initialOpen: bool, hasOnPress: bool)

  datatype State = State(isOpen: bool, selectedItem: Option<string>, height: int)

  const ItemHeight: int := 50
  const DefaultOpenHeight: int := 200

  /** Applies the declared defaults: closed, 200 points tall when open. */
  function MakeProps(title: Option<string>, items: seq<Item>, openHeight: Option<int>,
                     initialOpen: Option<bool>, hasOnPress: bool): (p: Props)
    ensures p.openHeight == (if openHeight.Some? then openHeight.value else DefaultOpenHeight)
    ensures p.initialOpen <==> initialOpen == Some(true)
    ensures p.title == title && p.items == items && p.hasOnPress == hasOnPress
  {
    Props(title, items, openHeight.GetOr(DefaultOpenHeight), initialOpen.GetOr(false), hasOnPress)
  }

  /** Nothing selected; open (at the full open height) only if asked to be. */
  function Init(p: Props): State {
    State(p.initialOpen, None, if p.initialOpen then p.openHeight else 0)
  }

  /** On first render the header shows the title, else the first item; the
      first press closes an initially open list and otherwise opens it to its
      content height. */
  lemma FirstRender(p: Props)
    ensures Init(p).selectedItem.None? && Init(p).isOpen == p.initialOpen
    ensures Init(p).height == if p.initialOpen then p.openHeight else 0
    ensures DisplayedTitle(p, Init(p))
      == if Present(p.title) then p.title else if |p.items| > 0 then Some(p.items[0].value) else None
    ensures Renders(p, Init(p)) ==>
      var next := ToggleDropdown(p, Init(p));
      && next.isOpen == !p.initialOpen
      && next.height == (if p.initialOpen then 0 else ContentHeight(p, Init(p)))
  {
  }

  /** An initially open list starts at the full `openHeight`, not at its
      content height: once closed and reopened it shrinks to the content. */
  lemma ReopenFitsContent(p: Props)
    requires p.initialOpen && Renders(p, Init(p))
    ensures var closed := ToggleDropdown(p, Init(p));
      && closed.height == 0
      && ToggleDropdown(p, closed).isOpen
      && ToggleDropdown(p, closed).height == ContentHeight(p, Init(p))
  {
  }

  /** One title and one item: 200 points tall at first, 50 after a reopen. */
  lemma ReopenExample()
    ensures var p := Props(Some("x"), [Item("a", "a")], DefaultOpenHeight, true, false);
      && Init(p).height == 200
      && Renders(p, Init(p))
      && ToggleDropdown(p, ToggleDropdown(p, Init(p))).height == 50
  {
    var p := Props(Some("x"), [Item("a", "a")], DefaultOpenHeight, true, false);
    assert FilteredItems(p, Init(p)) == [Item("a", "a")];
  }

  /** `selectedItem || title || items[0].value`; `None` when rendering would
      read the first item of an empty list and throw. */
  function DisplayedTitle(p: Props, s: State): (r: Option<string>)
    ensures r.None? <==> !Present(s.selectedItem) && !Present(p.title) && |p.items| == 0
    ensures Present(s.selectedItem) ==> r == s.selectedItem
    ensures !Present(s.selectedItem) && Present(p.title) ==> r == p.title
    ensures !Present(s.selectedItem) && !Present(p.title) && |p.items| > 0 ==> r == Some(p.items[0].value)
  {
    if Present(s.selectedItem) then s.selectedItem
    else if Present(p.title) then p.title
    else if |p.items| > 0 then Some(p.items[0].value)
    else None
  }

  /** The component renders, so its handlers exist. */
  predicate Renders(p: Props, s: State) {
    DisplayedTitle(p, s).Some?
  }

  /** `items.filter(item => item.value !== title)`. */
  function Without(items: seq<Item>, title: string): (r: seq<Item>)
    ensures |r| <= |items|
    ensures forall i :: 0 <= i < |r| ==> r[i].value != title
    ensures forall it :: it in r <==> it in items && it.value != title
  {
    if items == [] then []
    else if items[0].value != title then [items[0]] + Without(items[1..], title)
    else Without(items[1..], title)
  }

  /** Filtering works piecewise, so the kept items stay in their order. */
  lemma {:induction false} WithoutAppend(a: seq<Item>, b: seq<Item>, title: string)
    ensures Without(a + b, title) == Without(a, title) + Without(b, title)
    decreases |a|
  {
    if a == [] {
      assert a + b == b;
    } else {
      assert (a + b)[0] == a[0];
      assert (a + b)[1..] == a[1..] + b;
      WithoutAppend(a[1..], b, title);
    }
  }

  /** A list that never shows the title is left as it is. */
  lemma {:induction false} WithoutNothing(items: seq<Item>, title: string)
    requires forall i :: 0 <= i < |items| ==> items[i].value != title
    ensures Without(items, title) == items
    decreases |items|
  {
    if items != [] {
      WithoutNothing(items[1..], title);
    }
  }

  /** The items the open list shows. */
  function FilteredItems(p: Props, s: State): (r: seq<Item>)
    requires Renders(p, s)
    ensures forall it :: it in r <==> it in p.items && it.value != DisplayedTitle(p, s).value
  {
    Without(p.items, DisplayedTitle(p, s).value)
  }

  /** `Math.min(filteredItems.length * ITEM_HEIGHT, openHeight)`. */
  function ContentHeight(p: Props, s: State): (h: int)
    requires Renders(p, s)
    ensures h <= p.openHeight
    ensures h <= |FilteredItems(p, s)| * ItemHeight
    ensures h == p.openHeight || h == |FilteredItems(p, s)| * ItemHeight
    ensures p.openHeight >= 0 ==> h >= 0
  {
    var needed := |FilteredItems(p, s)| * ItemHeight;
    if needed < p.openHeight then needed else p.openHeight
  }

  /** Header press: flip `isOpen`, aiming the height at 0 when closing and at
      the content height when opening. */
  function ToggleDropdown(p: Props, s: State): (r: State)
    requires Renders(p, s)
    ensures r.isOpen == !s.isOpen && r.selectedItem == s.selectedItem
    ensures s.isOpen ==> r.height == 0
    ensures !s.isOpen ==> r.height == ContentHeight(p, s) && r.height <= p.openHeight
  {
    State(!s.isOpen, s.selectedItem, if s.isOpen then 0 else ContentHeight(p, s))
  }

  /** Toggling twice restores the open flag and closes at height 0 or reopens
      at the same content height. */
  lemma ToggleTwice(p: Props, s: State)
    requires Renders(p, s)
    ensures Renders(p, ToggleDropdown(p, s))
    ensures var t := ToggleDropdown(p, ToggleDropdown(p, s));
      t.isOpen == s.isOpen && t.selectedItem == s.selectedItem
      && t.height == (if s.isOpen then ContentHeight(p, s) else 0)
  {
  }

  /** The outcome of a selection: the new state and the key reported to the
      parent's `onPress`, if one was passed. */
  datatype Selection = Selection(state: State, reported: Option<string>)

  /** Item press: select its value, toggle (with this render's content
      height), report its key. */
  function HandleSelectItem(p: Props, s: State, item: Item): (r: Selection)
    requires Renders(p, s)
    ensures r.state.selectedItem == Some(item.value)
    ensures r.state.isOpen == !s.isOpen
    ensures r.reported == (if p.hasOnPress then Some(item.key) else None)
  {
    var toggled := ToggleDropdown(p, s);
    Selection(toggled.(selectedItem := Some(item.value)), if p.hasOnPress then Some(item.key) else None)
  }

  /** The list, and with it every item press, is there only while open. */
  predicate Offered(p: Props, s: State, item: Item) {
    Renders(p, s) && s.isOpen && item in FilteredItems(p, s)
  }

  /** Choosing an offered item closes the list and shows that item in the
      header; an item with a non-empty value then leaves the list. */
  lemma SelectOffered(p: Props, s: State, item: Item)
    requires Offered(p, s, item)
    ensures var t := HandleSelectItem(p, s, item).state;
      && !t.isOpen && t.height == 0
      && Renders(p, t)
      && (Truthy(item.value) ==> DisplayedTitle(p, t) == Some(item.value)
                                 && forall it :: it in FilteredItems(p, t) ==> it.value != item.value)
  {
  }

  /** The header never shows up again in the list. */
  lemma TitleNotListed(p: Props, s: State)
    requires Renders(p, s)
    ensures forall i :: 0 <= i < |FilteredItems(p, s)| ==> FilteredItems(p, s)[i].value != DisplayedTitle(p, s).value
  {
  }
}

=== FILE: format_date.dfy ===
/** Formatting of ISO dates: choice of the date library's locale from the
    active translation locale, and defaulting of the pattern and options.
    Parsing and formatting themselves are the date library's and are kept
    as an opaque call record. */
module FormatDate {
  import opened Wrappers
  import opened Text
  import I18n

  /** The three locales of the date library the app imports. */
  datatype DateLocale = ArSA | Ko | EnUS

  /** A value in the caller's options object; only `locale` is interpreted. */
  datatype OptionValue = LocaleValue(locale: DateLocale) | Opaque(token: string)

  type Options = map<string, OptionValue>

  const LocaleOption: string := "locale"
  const DefaultPattern: string := "MMM dd, yyyy"

  /** The arguments handed to the date library's `format(parseISO(date), …)`. */
  datatype FormatCall = FormatCall(date: string, pattern: string, options: Options)

  /** Only the language part of the active locale counts: `ar` selects
      Arabic, `ko` Korean, anything else US English. */
  function GetLocale(activeLocale: string): (r: DateLocale)
    ensures r == ArSA <==> BeforeFirst(activeLocale, '-') == "ar"
    ensures r == Ko <==> BeforeFirst(activeLocale, '-') == "ko"
  {
    var language := BeforeFirst(activeLocale, '-');
    if language == "ar" then ArSA else if language == "ko" then Ko else EnUS
  }

  /** The region part never matters. */
  lemma RegionIgnored(language: string, region: string)
    requires '-' !in language
    ensures GetLocale(language + "-" + region) == GetLocale(language)
  {
    BeforeFirstJoin(language, '-', region);
    BeforeFirstWithout(language, '-');
  }

  /** No locale that locale resolution produces is Arabic or Korean, so the
      dates of a resolved locale are formatted in US English. */
  lemma AppDatesAreEnglish(tag: string)
    ensures GetLocale(I18n.ResolveLocale(tag)) == EnUS
  {
    var l := I18n.ResolveLocale(tag);
    if l == "en-US" {
      BeforeFirstJoin("en", '-', "US");
    } else {
      BeforeFirstWithout(l, '-');
    }
  }

  function FormatDate(activeLocale: string, date: string, dateFormat: Option<string>,
                      options: Option<Options>): (r: FormatCall)
    ensures r.date == date
    // the given pattern passes through unchanged; only an absent one is defaulted
    ensures dateFormat.Some? ==> r.pattern == dateFormat.value
    ensures dateFormat.None? ==> r.pattern == DefaultPattern
    // the computed locale overrides the caller's, every other option is kept
    ensures LocaleOption in r.options && r.options[LocaleOption] == LocaleValue(GetLocale(activeLocale))
    ensures options.Some? ==> r.options.Keys == options.value.Keys + {LocaleOption}
    ensures options.None? ==> r.options.Keys == {LocaleOption}
    ensures options.Some? ==> forall k :: k in options.value && k != LocaleOption ==> r.options[k] == options.value[k]
  {
    var given := options.GetOr(map[]);
    FormatCall(date, dateFormat.GetOr(DefaultPattern), given[LocaleOption := LocaleValue(GetLocale(activeLocale))])
  }
}

=== FILE: i18n.dfy ===
/** Choice of the active translation locale from the device's preferred
    locales, and the right-to-left flag. */
module I18n {
  import opened Wrappers
  import opened Text

  datatype TextDirection = Ltr | Rtl

  /** One entry of the device's preferred-locales list. */
  datatype DeviceLocale = DeviceLocale(languageTag: string, textDirection: Option<TextDirection>)

  const FallbackLocale: string := "en-US"

  /** The keys of the translations table. */
  const TranslationKeys: set<string> := {"de", "en", "en-US"}

  /** The first preferred locale, if the list has one. */
  function SystemLocale(locales: seq<DeviceLocale>): (r: Option<DeviceLocale>)
    ensures r.Some? <==> |locales| > 0
    ensures r.Some? ==> r.value == locales[0]
  {
    if |locales| > 0 then Some(locales[0]) else None
  }

  /** The system language tag; a missing system locale counts as the fallback. */
  function SystemLocaleTag(locales: seq<DeviceLocale>): (tag: string)
    ensures |locales| == 0 ==> tag == FallbackLocale
    ensures |locales| > 0 ==> tag == locales[0].languageTag
  {
    match SystemLocale(locales)
    case Some(l) => l.languageTag
    case None => FallbackLocale
  }

  /** The exact tag if it is a key, else its language part (before the first
      `-`) if that is a key, else the fallback. */
  function ResolveLocale(tag: string): (r: string)
    // the result always names a translation
    ensures r in TranslationKeys
    // both directions: the tag is kept exactly when it is a key
    ensures r == tag <==> tag in TranslationKeys
    // otherwise the result is a leading part of the tag, or the fallback
    ensures r != tag ==> r == BeforeFirst(tag, '-') || r == FallbackLocale
  {
    if tag in TranslationKeys then tag
    else
      var general := BeforeFirst(tag, '-');
      if general in TranslationKeys then general
      else FallbackLocale
  }

  /** A regional tag of a supported language falls back to the language. */
  lemma RegionalTagFallsBackToLanguage(language: string, region: string)
    requires '-' !in language && language in TranslationKeys
    requires language + "-" + region !in TranslationKeys
    ensures ResolveLocale(language + "-" + region) == language
  {
    BeforeFirstJoin(language, '-', region);
  }

  /** A tag that neither is a key nor starts with one before its first `-`
      gets the fallback. */
  lemma UnsupportedTagGetsFallback(tag: string)
    requires tag !in TranslationKeys && BeforeFirst(tag, '-') !in TranslationKeys
    ensures ResolveLocale(tag) == FallbackLocale
  {
  }

  /** Resolving an already resolved locale keeps it. */
  lemma ResolveLocaleIdempotent(tag: string)
    ensures ResolveLocale(ResolveLocale(tag)) == ResolveLocale(tag)
  {
  }

  /** Sample resolutions. */
  lemma ResolveLocaleExamples()
    ensures ResolveLocale("de-AT") == "de"
    ensures ResolveLocale("en-GB") == "en"
    ensures ResolveLocale("en-US") == "en-US"
    ensures ResolveLocale("fr-FR") == FallbackLocale
  {
    assert "de" + "-" + "AT" == "de-AT";
    assert "de-AT"[1] != "en-US"[1];
    RegionalTagFallsBackToLanguage("de", "AT");
    assert "en" + "-" + "GB" == "en-GB";
    assert "en-GB"[3] != "en-US"[3];
    RegionalTagFallsBackToLanguage("en", "GB");
    BeforeFirstJoin("fr", '-', "FR");
  }

  /** The locale the app starts with. */
  function ActiveLocale(locales: seq<DeviceLocale>): (r: string)
    ensures r in TranslationKeys
    ensures |locales| == 0 ==> r == FallbackLocale
    // corollary of the next clause and `ResolveLocale`'s contract
    ensures |locales| > 0 && locales[0].languageTag in TranslationKeys ==> r == locales[0].languageTag
    ensures |locales| > 0 ==> r == ResolveLocale(locales[0].languageTag)
  {
    ResolveLocale(SystemLocaleTag(locales))
  }

  /** Right-to-left layout is used when the system locale exists and says so. */
  function IsRTL(locales: seq<DeviceLocale>): (b: bool)
    ensures b <==> |locales| > 0 && locales[0].textDirection == Some(Rtl)
  {
    match SystemLocale(locales)
    case Some(l) => l.textDirection == Some(Rtl)
    case None => false
  }
}

=== FILE: text.dfy ===
/** String operations the app performs with JavaScript built-ins: truthiness
    of a string, `s.replace(/c/g, '')` for a one-character pattern, and
    `s.split(c)[0]`. Strings are sequences of `char`, which are Unicode
    scalar values rather than the UTF-16 code units of JavaScript; every
    character these operations look for is ASCII, one code unit either way. */
module Text {
  import opened Wrappers

  /** A JavaScript string is truthy exactly when it is not empty. */
  predicate Truthy(s: string) {
    |s| > 0
  }

  /** An optional string (`null`/`undefined` when absent) is truthy when it
      is present and not empty. */
  predicate Present(o: Option<string>) {
    o.Some? && Truthy(o.value)
  }

  /** The falsy strings are exactly `""`, `null` and `undefined`. */
  lemma FalsyStrings(s: string, o: Option<string>)
    ensures !Truthy(s) <==> s == ""
    ensures !Present(o) <==> o == None || o == Some("")
  {
  }

  /** `s` with every occurrence of `c` deleted. */
  function RemoveAll(s: string, c: char): (r: string)
    ensures c !in r
    ensures |r| <= |s|
    ensures c !in s ==> r == s
    ensures multiset(r) == multiset(s)[c := 0]
  {
    if s == [] then []
    else
      assert s == [s[0]] + s[1..];
      if s[0] == c then RemoveAll(s[1..], c)
      else [s[0]] + RemoveAll(s[1..], c)
  }

  /** Deletion works piecewise, so the surviving characters keep their order. */
  lemma {:induction false} RemoveAllAppend(a: string, b: string, c: char)
    ensures RemoveAll(a + b, c) == RemoveAll(a, c) + RemoveAll(b, c)
    decreases |a|
  {
    if a == [] {
      assert a + b == b;
    } else {
      assert (a + b)[0] == a[0];
      assert (a + b)[1..] == a[1..] + b;
      RemoveAllAppend(a[1..], b, c);
    }
  }

  /** Deleting twice deletes nothing more. */
  lemma RemoveAllIdempotent(s: string, c: char)
    ensures RemoveAll(RemoveAll(s, c), c) == RemoveAll(s, c)
  {
  }

  /** `s.split(c)[0]`: the part of `s` before the first `c`, or all of `s`. */
  function BeforeFirst(s: string, c: char): (r: string)
    ensures r <= s
    ensures c !in r
    ensures |r| < |s| ==> s[|r|] == c
  {
    if s == [] then []
    else if s[0] == c then []
    else [s[0]] + BeforeFirst(s[1..], c)
  }

  /** The three properties of `BeforeFirst` determine it: any prefix free of
      `c` that ends at a `c` or at the end of `s` is that result. */
  lemma BeforeFirstUnique(s: string, c: char, p: string)
    requires p <= s && c !in p
    requires |p| == |s| || s[|p|] == c
    ensures p == BeforeFirst(s, c)
  {
  }

  /** A string without `c` is its own first part. */
  lemma BeforeFirstWithout(s: string, c: char)
    requires c !in s
    ensures BeforeFirst(s, c) == s
  {
    BeforeFirstUnique(s, c, s);
  }

  /** `(p + c + q).split(c)[0] == p` when `p` holds no `c`. */
  lemma BeforeFirstJoin(p: string, c: char, q: string)
    requires c !in p
    ensures BeforeFirst(p + [c] + q, c) == p
  {
    var s := p + [c] + q;
    assert s[|p|] == c;
    assert p <= s;
    BeforeFirstUnique(s, c, p);
  }
}

=== FILE: theme_context.dfy ===
/** The theme context: the current app theme, its toggle (persisted before it
    takes effect), the palette it selects, and the theme chosen on load.
    Storage is a map from storage key to stored text. */
module ThemeContext {
  import opened Wrappers
  import opened Text
  import opened Colors

  /** The keys of the app's key-value storage. */
  datatype StorageKey = AppTheme | AppLanguage | FirstLaunch

  type Storage = map<StorageKey, string>

  /** A theme value: a scheme name, or `None` for `null`/`undefined`. Values
      loaded from storage are not checked, so any string can occur. */
  type Theme = Option<string>

  datatype ThemeState = ThemeState(appTheme: Theme, storage: Storage)

  /** The state starts with the system colour scheme. */
  function Init(colorScheme: Theme, storage: Storage): ThemeState {
    ThemeState(colorScheme, storage)
  }

  /** Light becomes dark; every other theme, `None` included, becomes light. */
  function NextTheme(t: Theme): (r: string)
    ensures r == "dark" <==> t == Some("light")
    ensures r == "light" || r == "dark"
  {
    if t == Some("light") then "dark" else "light"
  }

  /** The saved theme and the current theme agree. */
  predicate Persisted(s: ThemeState) {
    AppTheme in s.storage && s.appTheme == Some(s.storage[AppTheme])
  }

  /** `setAppTheme`: save the next theme under the theme key, then make it
      current. Other storage entries are untouched. */
  function SetAppTheme(s: ThemeState): (r: ThemeState)
    ensures Persisted(r)
    ensures r.appTheme == Some(NextTheme(s.appTheme))
    ensures forall k :: k != AppTheme ==> (k in r.storage <==> k in s.storage)
    ensures forall k :: k != AppTheme && k in s.storage ==> r.storage[k] == s.storage[k]
  {
    var next := NextTheme(s.appTheme);
    var saved := s.storage[AppTheme := next];
    ThemeState(Some(next), saved)
  }

  /** From light or dark, two toggles return to the start; from anywhere,
      one toggle lands on light or dark. */
  lemma ToggleTwice(s: ThemeState)
    ensures SetAppTheme(s).appTheme == Some("light") || SetAppTheme(s).appTheme == Some("dark")
    ensures s.appTheme == Some("light") || s.appTheme == Some("dark")
            ==> SetAppTheme(SetAppTheme(s)).appTheme == s.appTheme
  {
  }

  /** On load a truthy stored theme wins over the system colour scheme. */
  function LoadTheme(storage: Storage, colorScheme: Theme): (r: Theme)
    ensures AppTheme in storage && Truthy(storage[AppTheme]) ==> r == Some(storage[AppTheme])
    ensures !(AppTheme in storage && Truthy(storage[AppTheme])) ==> r == colorScheme
  {
    if AppTheme in storage && Truthy(storage[AppTheme]) then Some(storage[AppTheme]) else colorScheme
  }

  /** The load effect: replace the current theme by the loaded one. */
  function OnLoad(s: ThemeState, colorScheme: Theme): (r: ThemeState)
    ensures r.storage == s.storage
    ensures r.appTheme == LoadTheme(s.storage, colorScheme)
  {
    s.(appTheme := LoadTheme(s.storage, colorScheme))
  }

  /** Start-up: the system scheme is shown until the load effect runs, which
      switches to a truthy saved theme and otherwise keeps the system scheme.
      Storage is only read. */
  lemma StartUp(colorScheme: Theme, storage: Storage)
    ensures Init(colorScheme, storage).appTheme == colorScheme
    ensures var loaded := OnLoad(Init(colorScheme, storage), colorScheme);
      && loaded.storage == storage
      && (AppTheme in storage && storage[AppTheme] != "" ==> loaded.appTheme == Some(storage[AppTheme]))
      && (AppTheme !in storage || storage[AppTheme] == "" ==> loaded.appTheme == colorScheme)
  {
  }

  /** A toggled theme survives a reload whatever the system scheme says. */
  lemma ToggleSurvivesReload(s: ThemeState, colorScheme: Theme)
    ensures OnLoad(SetAppTheme(s), colorScheme) == SetAppTheme(s)
  {
  }

  /** The scheme name a theme selects: `appTheme || 'light'`. */
  function SchemeName(t: Theme): (name: string)
    ensures !Present(t) ==> name == "light"
    ensures Present(t) ==> name == t.value
  {
    if Present(t) then t.value else "light"
  }

  /** `{ ...colors[appTheme || 'light'], ...palette }`: the theme's scheme
      table overlaid by the base palette. The base palette's `transparent`
      overrides the scheme's, but it is the same colour. */
  function PaletteFor(t: Theme): (p: map<ColorKey, Color>)
    ensures forall k :: IsBase(k) ==> k in p && p[k] == BaseColor(k)
    ensures SchemeName(t) == "light" ==> forall k :: IsRole(k) ==> k in p && p[k] == LightColor(k)
    ensures SchemeName(t) == "dark" ==> forall k :: IsRole(k) ==> k in p && p[k] == DarkColor(k)
    // an unknown scheme name contributes nothing: only the base palette is left
    ensures SchemeTable(SchemeName(t)).None? ==> forall k :: k in p <==> IsBase(k)
  {
    var scheme := SchemeTable(SchemeName(t)).GetOr(map[]);
    Overlay(SchemeName(t));
    scheme + BasePalette
  }

  /** The entries of a scheme table overlaid by the base palette. */
  lemma Overlay(name: string)
    ensures var p := SchemeTable(name).GetOr(map[]) + BasePalette;
      && (forall k :: IsBase(k) ==> k in p && p[k] == BaseColor(k))
      && (name == "light" ==> forall k :: IsRole(k) ==> k in p && p[k] == LightColor(k))
      && (name == "dark" ==> forall k :: IsRole(k) ==> k in p && p[k] == DarkColor(k))
      && (SchemeTable(name).None? ==> forall k :: k in p <==> IsBase(k))
  {
    var scheme := SchemeTable(name).GetOr(map[]);
    BaseWins(scheme);
    if name == "light" {
      assert scheme == LightColors;
      SchemeOverlay(LightColors, true);
    } else if name == "dark" {
      assert scheme == DarkColors;
      SchemeOverlay(DarkColors, false);
    } else {
      assert scheme == map[];
      TableEntries();
    }
  }

  /** Whatever the scheme table, the base palette's entries win. */
  lemma BaseWins(scheme: map<ColorKey, Color>)
    ensures forall k :: IsBase(k) ==> k in scheme + BasePalette && (scheme + BasePalette)[k] == BaseColor(k)
  {
    TableEntries();
  }

  /** Over the light or dark table, every role keeps the scheme's colour:
      the only role the base palette also defines is `transparent`, with the
      same colour. */
  lemma SchemeOverlay(scheme: map<ColorKey, Color>, light: bool)
    requires scheme == if light then LightColors else DarkColors
    ensures forall k :: IsRole(k) ==>
      k in scheme + BasePalette && (scheme + BasePalette)[k] == if light then LightColor(k) else DarkColor(k)
  {
    TableEntries();
    assert BaseColor(Transparent) == LightColor(Transparent) == DarkColor(Transparent);
  }

  /** An unset theme uses the light colours. */
  lemma UnsetThemeIsLight(t: Theme)
    requires !Present(t)
    ensures PaletteFor(t) == PaletteFor(Some("light"))
  {
  }

  /** The light and dark palettes define every role, with a colour. */
  lemma SchemePalettesComplete(name: string)
    requires name == "light" || name == "dark"
    ensures Complete(PaletteFor(Some(name)))
  {
    forall k | IsRole(k)
      ensures k in PaletteFor(Some(name)) && PaletteFor(Some(name))[k] != ""
    {
      if name == "light" {
        assert LightColor(k) != "";
      } else {
        assert DarkColor(k) != "";
      }
    }
  }

  /** A theme name without a scheme table leaves every role undefined. */
  lemma UnknownThemeHasNoRoles(name: string)
    requires Truthy(name) && name != "light" && name != "dark"
    ensures forall k :: IsRole(k) && k != Transparent ==> k !in PaletteFor(Some(name))
  {
  }

  /** The value the provider hands to consumers. */
  datatype ContextValue = ContextValue(appTheme: Theme, colors: map<ColorKey, Color>)

  function ProvidedValue(s: ThemeState): (v: ContextValue)
    ensures v.appTheme == s.appTheme
    // corollary of the next clause and `UnsetThemeIsLight`
    ensures !Present(s.appTheme) ==> v.colors == PaletteFor(Some("light"))
    ensures v.colors == PaletteFor(s.appTheme)
  {
    ContextValue(s.appTheme, PaletteFor(s.appTheme))
  }

  const OutsideProviderError: string := "useColor must be used inside AppThemeContext"

  /** `useColor` fails outside a provider and returns the value inside one. */
  function UseColor(context: Option<ContextValue>): (r: Result<ContextValue, string>)
    ensures r.Failure? <==> context.None?
    ensures r.Failure? ==> r.error == OutsideProviderError
    ensures r.Success? ==> r.value == context.value
  {
    match context
    case None => Failure(OutsideProviderError)
    case Some(v) => Success(v)
  }
}

=== FILE: toggle.dfy ===
/** The toggle component's decision rules (checkbox, radio and switch
    variants): when it is disabled, what a press does, which colour each
    part takes, the switch knob's size, and which labels show. Colours come
    from the theme palette; a missing palette entry reads as absent. */
module Toggle {
  import opened Wrappers
  import opened Text
  import opened Colors

  datatype Status = ErrorStatus | DisabledStatus
  datatype Variant = Checkbox | Radio | Switch

  const DefaultVariant: string := "checkbox"
  const DefaultLabelPosition: string := "right"

  /** `ToggleInputs[variant]` with the declared default; `None` (render
      nothing) for a name that is not a variant. */
  function ResolveVariant(variant: Option<string>): (r: Option<Variant>)
    ensures variant.None? ==> r == Some(Checkbox)
    ensures r == Some(Radio) <==> variant == Some("radio")
    ensures r == Some(Switch) <==> variant == Some("switch")
    ensures r.None? <==> variant.Some? && variant.value !in {"checkbox", "radio", "switch"}
  {
    var name := variant.GetOr(DefaultVariant);
    if name == "checkbox" then Some(Checkbox)
    else if name == "radio" then Some(Radio)
    else if name == "switch" then Some(Switch)
    else None
  }

  /** Where the field label goes: left, right (the default), or nowhere for
      any other position; and not at all without label content. */
  datatype LabelSides = LabelSides(left: bool, right: bool)

  function FieldLabelSides(labelPosition: Option<string>, labelText: Option<string>,
                           labelTx: Option<string>, hasChildren: bool): (r: LabelSides)
    ensures !(r.left && r.right)
    ensures (r.left || r.right) ==> Present(labelText) || Present(labelTx) || hasChildren
    ensures labelPosition.None? && (Present(labelText) || Present(labelTx) || hasChildren) ==> r.right
    ensures r.left ==> labelPosition == Some("left")
    ensures r.right ==> labelPosition.None? || labelPosition == Some("right")
    ensures (Present(labelText) || Present(labelTx) || hasChildren) && labelPosition == Some("left") ==> r.left
    ensures (Present(labelText) || Present(labelTx) || hasChildren) && labelPosition == Some("right") ==> r.right
  {
    var position := labelPosition.GetOr(DefaultLabelPosition);
    var hasContent := Present(labelText) || Present(labelTx) || hasChildren;
    LabelSides(hasContent && position == "left", hasContent && position == "right")
  }

  /** `!editable || status === 'disabled' || props.disabled`, with `editable`
      defaulting to true. */
  function IsDisabled(editable: Option<bool>, status: Option<Status>, disabled: Option<bool>): (d: bool)
    ensures !d <==> editable != Some(false) && status != Some(DisabledStatus) && disabled != Some(true)
  {
    !editable.GetOr(true) || status == Some(DisabledStatus) || disabled == Some(true)
  }

  /** `!!value`: an absent value is off. */
  predicate IsOn(value: Option<bool>) {
    value == Some(true)
  }

  /** The callbacks a press triggers, in order. */
  datatype Call = ValueChange(newValue: bool) | Press

  /** `handlePress`: nothing when disabled; otherwise report the negated
      value (if a listener is passed), then the press (if a handler is). */
  function HandlePress(disabled: bool, value: Option<bool>, hasOnValueChange: bool, hasOnPress: bool): (calls: seq<Call>)
    ensures disabled ==> calls == []
    ensures forall b :: ValueChange(b) in calls <==> !disabled && hasOnValueChange && b == !IsOn(value)
    ensures Press in calls <==> !disabled && hasOnPress
    // corollary of the two clauses below: a pair is the listener, then the handler
    ensures |calls| == 2 ==> calls[0].ValueChange? && calls[1] == Press
    ensures |calls| == if disabled then 0 else (if hasOnValueChange then 1 else 0) + (if hasOnPress then 1 else 0)
    ensures !disabled && hasOnValueChange && hasOnPress ==> calls == [ValueChange(value != Some(true)), Press]
  {
    if disabled then []
    else (if hasOnValueChange then [ValueChange(!IsOn(value))] else [])
         + (if hasOnPress then [Press] else [])
  }

  /** A parent that feeds the reported value back gets a proper toggle: two
      presses report opposite values and end where they started. */
  lemma PressTwice(value: Option<bool>)
    ensures var first := HandlePress(false, value, true, false);
      && first == [ValueChange(!IsOn(value))]
      && HandlePress(false, Some(first[0].newValue), true, false) == [ValueChange(IsOn(value))]
  {
  }

  /** Palette lookup: `colors.k`, absent when the palette lacks `k`. */
  function Lookup(colors: map<ColorKey, Color>, k: ColorKey): (r: Option<Color>)
    ensures r.Some? <==> k in colors
    ensures r.Some? ==> r.value == colors[k]
  {
    if k in colors then Some(colors[k]) else None
  }

  /** `cond && c`: a falsy entry when the guard fails. */
  function When(cond: bool, c: Option<Color>): (r: Option<Color>)
    ensures Present(r) <==> cond && Present(c)
    ensures Present(r) ==> r == c
  {
    if cond then c else None
  }

  /** `a || b` on optional colours. */
  function Or(a: Option<Color>, b: Option<Color>): (r: Option<Color>)
    ensures Present(r) <==> Present(a) || Present(b)
    ensures Present(a) ==> r == a
    ensures !Present(a) ==> r == b
  {
    if Present(a) then a else b
  }

  /** `[...].filter(Boolean)[0]`: the first truthy entry, absent when none is. */
  function FirstTruthy(entries: seq<Option<Color>>): (r: Option<Color>)
    ensures r.Some? ==> Truthy(r.value)
    ensures r.None? <==> forall i :: 0 <= i < |entries| ==> !Present(entries[i])
    ensures r.Some? ==> exists i :: 0 <= i < |entries| && entries[i] == r
                         && forall j :: 0 <= j < i ==> !Present(entries[j])
  {
    if entries == [] then None
    else if Present(entries[0]) then entries[0]
    else
      var rest := FirstTruthy(entries[1..]);
      assert forall j :: 1 <= j < |entries| ==> entries[j] == entries[1..][j - 1];
      if rest.Some? then
        var k :| 0 <= k < |entries[1..]| && entries[1..][k] == rest
                 && forall j :: 0 <= j < k ==> !Present(entries[1..][j]);
        assert entries[k + 1] == rest;
        rest
      else rest
  }

  /** A three-entry priority list whose last entry is truthy picks the first
      entry whose guard holds. */
  lemma FirstTruthyOfThree(a: Option<Color>, b: Option<Color>, c: Option<Color>)
    ensures Present(c) ==> FirstTruthy([a, b, c]) == if Present(a) then a else if Present(b) then b else c
  {
    var e := [a, b, c];
    assert e[1..] == [b, c];
    assert e[1..][1..] == [c];
    if Present(c) {
      assert FirstTruthy([c]) == c;
    }
  }

  /** The four-entry version. */
  lemma FirstTruthyOfFour(a: Option<Color>, b: Option<Color>, c: Option<Color>, d: Option<Color>)
    ensures Present(d) ==> FirstTruthy([a, b, c, d]) == if Present(a) then a else FirstTruthy([b, c, d])
  {
    var e := [a, b, c, d];
    assert e[1..] == [b, c, d];
  }

  /** The "off" background, the same in all three variants. */
  function OffBackground(colors: map<ColorKey, Color>, disabled: bool, status: Option<Status>): (r: Option<Color>)
    ensures Complete(colors) ==>
      r == Some(colors[if !disabled && status == Some(ErrorStatus) then ErrorBackground else BackgroundSecondary])
  {
    var entries := [When(disabled, Lookup(colors, BackgroundSecondary)),
                    When(status == Some(ErrorStatus), Lookup(colors, ErrorBackground)),
                    Lookup(colors, BackgroundSecondary)];
    FirstTruthyOfThree(entries[0], entries[1], entries[2]);
    FirstTruthy(entries)
  }

  /** The "on" background, the same in all three variants: transparent when
      disabled, whatever the status. */
  function OnBackground(colors: map<ColorKey, Color>, disabled: bool, status: Option<Status>): (r: Option<Color>)
    ensures Complete(colors) ==>
      r == Some(colors[if disabled then Transparent
                       else if status == Some(ErrorStatus) then ErrorBackground
                       else BackgroundSecondary])
  {
    var entries := [When(disabled, Lookup(colors, Transparent)),
                    When(status == Some(ErrorStatus), Lookup(colors, ErrorBackground)),
                    Lookup(colors, BackgroundSecondary)];
    FirstTruthyOfThree(entries[0], entries[1], entries[2]);
    FirstTruthy(entries)
  }

  /** The outer border of the checkbox and the radio: disabled beats error
      beats "off" beats the plain border. */
  function OuterBorder(colors: map<ColorKey, Color>, disabled: bool, status: Option<Status>, on: bool): (r: Option<Color>)
    ensures Complete(colors) ==>
      r == Some(colors[if disabled then BackgroundSecondary
                       else if status == Some(ErrorStatus) then Error
                       else if !on then Accent
                       else Border])
  {
    var entries := [When(disabled, Lookup(colors, BackgroundSecondary)),
                    When(status == Some(ErrorStatus), Lookup(colors, Error)),
                    When(!on, Lookup(colors, Accent)),
                    Lookup(colors, Border)];
    FirstTruthyOfFour(entries[0], entries[1], entries[2], entries[3]);
    FirstTruthyOfThree(entries[1], entries[2], entries[3]);
    FirstTruthy(entries)
  }

  /** The checkbox's check-mark tint. */
  function IconTint(colors: map<ColorKey, Color>, disabled: bool, status: Option<Status>): (r: Option<Color>)
    ensures Complete(colors) ==>
      r == Some(colors[if disabled then Background else if status == Some(ErrorStatus) then Error else TextColor])
  {
    var entries := [When(disabled, Lookup(colors, Background)),
                    When(status == Some(ErrorStatus), Lookup(colors, Error)),
                    Lookup(colors, TextColor)];
    FirstTruthyOfThree(entries[0], entries[1], entries[2]);
    FirstTruthy(entries)
  }

  /** The radio's dot. */
  function DotBackground(colors: map<ColorKey, Color>, disabled: bool, status: Option<Status>): (r: Option<Color>)
    ensures Complete(colors) ==>
      r == Some(colors[if disabled then Background else if status == Some(ErrorStatus) then Error else Accent])
  {
    var entries := [When(disabled, Lookup(colors, Background)),
                    When(status == Some(ErrorStatus), Lookup(colors, Error)),
                    Lookup(colors, Accent)];
    FirstTruthyOfThree(entries[0], entries[1], entries[2]);
    FirstTruthy(entries)
  }

  /** The switch knob: a style override wins; then, when on, error beats
      disabled, and when off, disabled beats error. */
  function KnobBackground(colors: map<ColorKey, Color>, disabled: bool, status: Option<Status>, on: bool,
                          detailBackground: Option<Color>, innerBackground: Option<Color>): (r: Option<Color>)
    ensures Complete(colors) && on ==>
      r == if Present(detailBackground) then detailBackground
           else Some(colors[if status == Some(ErrorStatus) then Error else if disabled then Background else Accent])
    ensures Complete(colors) && !on ==>
      r == if Present(innerBackground) then innerBackground
           else Some(colors[if disabled then Background else if status == Some(ErrorStatus) then Error else Accent])
    // the style override heads both lists, so it wins whatever the palette holds
    ensures on && Present(detailBackground) ==> r == detailBackground
    ensures !on && Present(innerBackground) ==> r == innerBackground
  {
    var error := When(status == Some(ErrorStatus), Lookup(colors, Error));
    var dim := When(disabled, Lookup(colors, Background));
    var entries := if on then [detailBackground, error, dim, Lookup(colors, Accent)]
                   else [innerBackground, dim, error, Lookup(colors, Accent)];
    FirstTruthyOfFour(entries[0], entries[1], entries[2], entries[3]);
    FirstTruthyOfThree(entries[1], entries[2], entries[3]);
    FirstTruthy(entries)
  }

  /** A disabled switch in error shows the error colour on its knob when on
      but the background colour when off. */
  lemma KnobPriorityFlips(colors: map<ColorKey, Color>)
    requires Complete(colors)
    ensures KnobBackground(colors, true, Some(ErrorStatus), true, None, None) == Some(colors[Error])
    ensures KnobBackground(colors, true, Some(ErrorStatus), false, None, None) == Some(colors[Background])
  {
  }

  /** A disabled toggle has the secondary background when off and a
      transparent one when on, whatever its status, and the secondary
      background as outer border. */
  lemma DisabledColours(colors: map<ColorKey, Color>, status: Option<Status>, on: bool)
    requires Complete(colors)
    ensures OffBackground(colors, true, status) == Some(colors[BackgroundSecondary])
    ensures OnBackground(colors, true, status) == Some(colors[Transparent])
    ensures OuterBorder(colors, true, status, on) == Some(colors[BackgroundSecondary])
  {
  }

  /** The colour of the switch's on/off accessibility label. */
  function LabelColor(colors: map<ColorKey, Color>, disabled: bool, status: Option<Status>, on: bool,
                      detailBackground: Option<Color>, innerBackground: Option<Color>): (r: Option<Color>)
    ensures Complete(colors) ==>
      r == if disabled then Some(colors[Background])
           else if status == Some(ErrorStatus) then Some(colors[Error])
           else if !on then Or(innerBackground, Some(colors[Background]))
           else Or(detailBackground, Some(colors[Accent]))
    // an enabled label outside the error state takes a truthy override whatever the palette holds
    ensures !disabled && status != Some(ErrorStatus) && !on && Present(innerBackground) ==> r == innerBackground
    ensures !disabled && status != Some(ErrorStatus) && on && Present(detailBackground) ==> r == detailBackground
  {
    var entries := [When(disabled, Lookup(colors, Background)),
                    When(status == Some(ErrorStatus), Lookup(colors, Error)),
                    When(!on, Or(innerBackground, Lookup(colors, Background))),
                    Or(detailBackground, Lookup(colors, Accent))];
    FirstTruthyOfFour(entries[0], entries[1], entries[2], entries[3]);
    FirstTruthyOfThree(entries[1], entries[2], entries[3]);
    FirstTruthy(entries)
  }

  /** A style dimension: a number of points, or anything else (such as a
      percentage string). */
  datatype Dimension = Points(n: int) | NonNumeric(text: string)

  const SwitchDetailSize: int := 24
  const KnobSizeFallback: int := 2

  /** `[...].find(v => typeof v === 'number')`: the first numeric entry. */
  function FirstNumber(entries: seq<Option<Dimension>>): (r: Option<int>)
    ensures r.None? <==> forall i :: 0 <= i < |entries| ==> !(entries[i].Some? && entries[i].value.Points?)
    ensures r.Some? ==> exists i :: 0 <= i < |entries| && entries[i] == Some(Points(r.value))
                         && forall j :: 0 <= j < i ==> !(entries[j].Some? && entries[j].value.Points?)
  {
    if entries == [] then None
    else if entries[0].Some? && entries[0].value.Points? then Some(entries[0].value.n)
    else
      var rest := FirstNumber(entries[1..]);
      assert forall j :: 1 <= j < |entries| ==> entries[j] == entries[1..][j - 1];
      if rest.Some? then
        var k :| 0 <= k < |entries[1..]| && entries[1..][k] == Some(Points(rest.value))
                 && forall j :: 0 <= j < k ==> !(entries[1..][j].Some? && entries[1..][j].value.Points?);
        assert entries[k + 1] == Some(Points(rest.value));
        rest
      else rest
  }

  /** Knob width (and, by the same rule, height): the override if numeric,
      else the switch detail style's 24; the search never comes up empty and
      never reaches the fallback 2. */
  function KnobSize(override: Option<Dimension>): (size: Option<int>)
    ensures size.Some?
    ensures override.Some? && override.value.Points? ==> size == Some(override.value.n)
    ensures !(override.Some? && override.value.Points?) ==> size == Some(SwitchDetailSize)
    ensures size == Some(KnobSizeFallback) ==> override == Some(Points(KnobSizeFallback))
  {
    var entries := [override, Some(Points(SwitchDetailSize)), Some(Points(KnobSizeFallback))];
    assert entries[1..] == [Some(Points(SwitchDetailSize)), Some(Points(KnobSizeFallback))];
    assert FirstNumber(entries[1..]) == Some(SwitchDetailSize);
    FirstNumber(entries)
  }

  datatype AccessibilityMode = TextMode | IconMode
  datatype LabelRole = OnRole | OffRole

  /** `shouldLabelBeVisible`, after the early return when no accessibility
      mode is set. */
  function LabelVisible(mode: Option<AccessibilityMode>, on: bool, role: LabelRole): (visible: bool)
    ensures mode.None? ==> !visible
    ensures visible ==> (role == OnRole <==> on)
  {
    mode.Some? && ((on && role == OnRole) || (!on && role == OffRole))
  }

  /** With a mode set, exactly one of the two labels shows. */
  lemma ExactlyOneLabel(mode: Option<AccessibilityMode>, on: bool)
    requires mode.Some?
    ensures LabelVisible(mode, on, OnRole) != LabelVisible(mode, on, OffRole)
  {
  }

  /** What a visible label draws: a line ("on") or a circle ("off") in text
      mode, an icon in icon mode. */
  datatype LabelContent = Line | Circle | IconLabel(icon: string)

  const ViewIcon: string := "VIEW"
  const HiddenIcon: string := "HIDDEN"

  function SwitchLabel(mode: Option<AccessibilityMode>, on: bool, role: LabelRole,
                       iconView: Option<string>, iconHidden: Option<string>): (r: Option<LabelContent>)
    ensures r.Some? <==> LabelVisible(mode, on, role)
    ensures r.Some? && mode == Some(TextMode) ==> r.value == (if role == OnRole then Line else Circle)
    ensures r.Some? && mode == Some(IconMode) ==> r.value.IconLabel? && Truthy(r.value.icon)
    ensures r.Some? && mode == Some(IconMode) && role == OffRole ==>
      r.value.icon == if Present(iconHidden) then iconHidden.value else "HIDDEN"
    ensures r.Some? && mode == Some(IconMode) && role == OnRole ==>
      r.value.icon == if Present(iconView) then iconView.value else "VIEW"
  {
    if !LabelVisible(mode, on, role) then None
    else if mode == Some(TextMode) then Some(if role == OnRole then Line else Circle)
    else if role == OffRole then Some(IconLabel(if Present(iconHidden) then iconHidden.value else HiddenIcon))
    else Some(IconLabel(if Present(iconView) then iconView.value else ViewIcon))
  }
}

=== FILE: wrappers.dfy ===
/** Failure-compatible wrappers shared by every module: `Option` stands for a
    JavaScript value that may be `null`/`undefined`, `Result` for a call that
    may throw. */
module Wrappers {

  datatype Option<+T> = None | Some(value: T) {

    /** The wrapped value, or `default` when absent (JavaScript's `??`). */
    function GetOr(default: T): T {
      match this
      case Some(v) => v
      case None => default
    }
  }

  datatype Result<+T, +E> = Success(value: T) | Failure(error: E)
}
